=== FILE: README.md ===
# UFC prediction bot: a Dafny model of its data logic

The bot (`index.js`) lets chat users record who they think will win each fight of a UFC
event. It keeps two global stores in memory: `events`, a list of scraped events each
holding its fights, and `predictions`, an object keyed by event name, then by user id,
holding each user's list of `{fight, prediction}` records.

Typed commands are read by splitting the message on single spaces and lower-casing the
first word. `!addevent <url>` scrapes an event page. `!p` lists the events as buttons.
`!mypredictions` lists, as buttons, the events the author has predicted on. Every further
step is a button press. The bot keeps no state between screens: each button carries a
hyphen-joined custom id such as `selectFight-0-3` or `predict-0-3-1`, and the interaction
handler splits that id apart again. The screens are:

- select an event: the fight buttons are drained five at a time into rows
- select a fight: one row with a button for each fighter and a "Back" button
- predict: a record is appended to `predictions[eventName][userId]`
- view: the user's records on one event

The model has these modules:

- `Js` holds the JavaScript built-ins the logic depends on: `split` and `join` on one
  character, ASCII `toLowerCase`, the decimal rendering of an index, and array indexing
  with a string key.
- `CustomIds` holds the id formats and their decoding.
- `Commands` holds message tokenising and command selection.
- `Scraping` turns the extracted name strings into fight records.
- `Chunking` holds the row-draining loop.
- `Predictions` holds the prediction store, the pick and the user-event filter.
- `Bot` holds the two handlers, in a class whose fields are the two stores.
- `Flows` proves that every button a screen builds leads to what its label says.
- `Loading` models the start-up state of `events`.

A handler that dereferences `undefined` crashes with a TypeError. The model represents
that crash as the reply `Throws`. The Discord client, the page fetch, the selectors and
the JSON files are parameters or are left out, as listed below.

Command words are split on single spaces, so two spaces in a row give an empty argument.

As written, the `!showNextEvent` branch can never be reached: the command is lower-cased
before it is compared with a literal that has capitals (`Commands.ShowNextEventUnreachable`,
see Findings). The message handler of the model, `Bot.Bot.OnMessage`, uses the corrected
comparison `Commands.ClassifyCorrected`, so in the model `!showNextEvent` shows the next event.

A user's events on the `!mypredictions` screen are numbered in key order. A first prediction
on an event that someone else already predicted on inserts that event at its key's position,
not at the end, so the user's later events move one place later
(`Predictions.RecordUserEventsInserts`). A `viewPredictions` button sent before that press
then opens a different event than its label says.

The screens the handler contracts are stated in are the functions below, each with its own row.
Their building blocks are definitions without rows: the id builders (`CustomIds.SelectEventId`,
`ViewPredictionsId`, `SelectFightId`, `PredictId`, `BackToFightsId`, at index.js:180, 213, 236,
264, 268, 275), the button lists (`Bot.EventButtons`, `UserEventButtons`, `FightButtons`) and
the message texts (`Bot.FightLines`, `PredictionLines`, `Added`, `Saved`).

## Model

| member | source | states |
|---|---|---|
| `Js.Split` | index.js:230 | `split` with a one-character separator yields at least one piece, and no piece contains the separator |
| `Js.SplitJoin` | index.js:230 | splitting a join of separator-free fields gives the same fields back |
| `Js.JoinSplit` | index.js:131 | joining the pieces of a split gives back the original string, so splitting loses nothing |
| `Js.SplitSingle` | index.js:230 | a string splits into a single piece exactly when it lacks the separator, and that piece is the whole string |
| `Js.ToLower` | index.js:132 | lower-casing keeps the length, maps each upper-case ASCII letter to its lower-case letter (32 code points up), leaves no upper-case letter and changes no other character |
| `Js.NatToString` | index.js:213 | the rendering of an index in a template literal is a canonical digit string (no sign, no leading zero) |
| `Js.IndexRoundTrip` | index.js:233 | a key denotes array index n exactly when it is the rendering of n |
| `Js.At` | index.js:233 | `a[key]` on any array, equal elements included, is defined exactly when the key is the decimal rendering of an index below the length, and is then the element at that index; otherwise `undefined` |
| `Js.AtIndex` | index.js:259-260 | element i is reached by the key rendered from i; when the elements are distinct, a key reaching element i is that rendering |
| `CustomIds.Decode` | index.js:230 | destructuring `customId.split("-")`: the kind is hyphen-free; the event position is missing exactly when the id has no hyphen; every present token is hyphen-free |
| `CustomIds.DecodeJoin` | index.js:230 | an id joined from one to four hyphen-free tokens decodes to those tokens in their positions, with missing positions `undefined` |
| `CustomIds.DecodeSelectEventId` | index.js:213 | `selectEvent-${e}` decodes to kind `selectEvent` with event token e |
| `CustomIds.DecodeViewPredictionsId` | index.js:180 | `viewPredictions-${i}` decodes to kind `viewPredictions` with token i |
| `CustomIds.DecodeSelectFightId` | index.js:236 | `selectFight-${e}-${i}` decodes to kind `selectFight` with tokens e and i |
| `CustomIds.DecodePredictId` | index.js:264-268 | `predict-${e}-${f}-${k}` decodes to kind `predict` with tokens e, f and k |
| `CustomIds.DecodeBackToFightsId` | index.js:275 | `backToFights-${e}` decodes to kind `backToFights` with token e |
| `Commands.Tokenize` | index.js:131-132 | the command has no upper-case letter, and neither the command nor any argument contains a space |
| `Commands.TokenizeWords` | index.js:131-132 | a message of space-free words gives the first word lower-cased as the command and the other words in order as the arguments |
| `Commands.TokenizeLength` | index.js:131-132 | the command and the arguments, joined back with spaces, are exactly as long as the message (with the ASCII lower-casing of `Js.ToLower`) |
| `Commands.Classify` | index.js:135-205 | the comparisons as written: each command is selected exactly by its literal, `"!showNextEvent"` with its capitals |
| `Commands.ShowNextEventUnreachable` | index.js:194 | for every message, the command compared at line 194 differs from `"!showNextEvent"`, so that branch never runs |
| `Commands.ClassifyCorrected` | index.js:135-205 | with the next-event literal lower-cased, the branch is taken exactly for `!shownextevent`; on every other command it agrees with the comparisons as written |
| `Commands.ShowNextEventReachable` | index.js:194 | with the corrected comparison, a message whose first word is `!showNextEvent` in any letter case reaches the next-event branch |
| `Scraping.FullName` | index.js:73-74 | `given + " " + family` is never empty and contains both parts around the space |
| `Scraping.FightLabel` | index.js:237 | `${fighter1} vs ${fighter2}` is the first name, then ` vs `, then the second name |
| `Scraping.RowFight` | index.js:73-81 | the fight built from a row has non-empty names, each its given name, a space and its family name, and result 0 |
| `Scraping.ScrapeFights` | index.js:46-83 | the row loop pushes exactly one fight per row, in row order, each with non-empty names and result 0, so the guard at line 76 never drops a fight |
| `Scraping.ScrapedEvent` | index.js:27-93 | a scrape fails exactly when the fetch fails or the heading is empty; otherwise it gives the heading, the date "test" and, for each row in order, the fight built from that row, with non-empty names and result 0 |
| `Scraping.ScrapeEvent` | index.js:36-89 | `addEvent`'s name check followed by the row loop computes the specified scrape result |
| `Chunking.SpliceFront` | index.js:244 | `splice(0, 5)` removes min(5, n) buttons from the front; the removed part followed by the rest is the original list |
| `Chunking.ChunksFlatten` | index.js:242-245 | concatenating the rows in order gives back the button list |
| `Chunking.ChunksRowSizes` | index.js:242-245 | every row holds one to five buttons, and every row except the last holds exactly five |
| `Chunking.ChunksCount` | index.js:242-245 | n buttons give ceil(n/5) rows |
| `Chunking.ChunkRows` | index.js:355-358 | the draining loop terminates and yields the specified rows: in order, concatenating to the input, 1 to 5 per row, ceil(n/5) of them |
| `Predictions.PickFighter` | index.js:294 | the pick is fighter1 when the token is `"1"` and fighter2 for any other token, `undefined` included |
| `Predictions.Record` | index.js:297-308 | creates the event map and the user list when missing, then appends exactly one record. Every other (event, user) list keeps its presence and contents. The key order grows by the event exactly when it is new |
| `Predictions.Filter` | index.js:170-172 | a key is kept exactly when it is listed and the user has a list under it; the result is never longer than the keys |
| `Predictions.UserEvents` | index.js:323-325 | the author's events are exactly the keys carrying their list, each once |
| `Predictions.FilterAppend` | index.js:170-172 | the filter keeps the keys' relative order, because it distributes over concatenation |
| `Predictions.FilterDistinct` | index.js:323-325 | filtering distinct keys gives distinct keys |
| `Predictions.RecordUserEvents` | index.js:297-308 | recording on an event the user already has a list on leaves the user's numbered events unchanged; recording on a new event key appends that event to them |
| `Predictions.RecordUserEventsInserts` | index.js:297-308 | recording on an existing event key the user has no list on inserts that event among the user's events at the key's position, between the events before and after it in key order |
| `Bot.ListEventsReply` | index.js:205-224 | `!p` sends no buttons exactly when there are no events, else one row with a button per event, labelled with the event's name |
| `Bot.MyPredictionsReply` | index.js:165-191 | `!mypredictions` sends no buttons exactly when the author has no list on any event, else one row labelled with the author's events in key order |
| `Bot.NextEventReply` | index.js:194-203 | the next-event screen throws exactly when there is no event, else it starts with the first event's name and has no buttons |
| `Bot.FightMenu` | index.js:232-256 | `selectEvent` and `backToFights` throw exactly when the event token names no event; otherwise the rows concatenate to the event's fight buttons, 1 to 5 per row, ceil(n/5) rows |
| `Bot.SelectFightScreen` | index.js:258-288 | `selectFight` throws (on the event, then on the fight) exactly when a winner press with the same tokens would; otherwise one row: "Predict" plus each pick such a press stores, then "Back", under the label of the fight it stores |
| `Bot.PredictionOf` | index.js:291-308 | a winner press resolves exactly when both tokens index an existing event and fight; it stores that event's name, the fight's label and fighter1 for token `"1"`, fighter2 otherwise |
| `Bot.ViewPredictionsScreen` | index.js:322-342 | a token indexing the author's events shows the author's list on that event and clears the buttons; any other token reads the key "undefined" and succeeds exactly when such an event holds a list of the author |
| `Bot.BuildFightMenu` | index.js:232-256 | the `selectEvent`/`backToFights` screen built by mapping and draining equals the specified menu; its rows concatenate to the fight buttons, with 1 to 5 buttons per row |
| `Bot.Bot.constructor` | index.js:122 | the bot starts from the loaded events and predictions |
| `Bot.Bot.RecordPrediction` | index.js:297-308 | the three-step in-place update leaves `predictions` equal to `Record` of the old store and leaves `events` untouched |
| `Bot.Bot.PushEvent` | index.js:148-152 | `events.push` appends the scraped event and leaves the predictions untouched |
| `Bot.Bot.OnMessage` | index.js:128-225 | dispatches the tokenised command. A bot author gets no reply. `!addevent` answers a missing URL, a failed scrape or a success, and pushes only on success. `!mypredictions`, `!showNextEvent` and `!p` reply with their screens and leave both stores unchanged |
| `Bot.Bot.OnButton` | index.js:227-370 | dispatches on the decoded kind. `predict` either throws before touching the store or records exactly `PredictionOf` the decoded tokens. Every other kind leaves both stores unchanged and replies with its screen. Unknown kinds are ignored |
| `Flows.EventButtonResolves` | index.js:211-216 | the i-th `!p` button decodes to `selectEvent` and resolves to the i-th event, whose name is its label |
| `Flows.FightButtonResolves` | index.js:234-239 | the i-th fight button decodes to `selectFight`, resolves to the same event and to its i-th fight, and is labelled with that fight |
| `Flows.WinnerButtonsPick` | index.js:262-277 | on a fight screen, the first button records fighter1, the second records fighter2, and "Back" reopens the same fight menu |
| `Flows.UserEventButtonResolves` | index.js:323-329 | the i-th `!mypredictions` button, numbered by the same filter in the same key order, opens the author's list on the event it is labelled with |
| `Flows.PredictionIsListed` | index.js:291-308 | after a winner press, the pick ends the presser's list on that event and the event is among the presser's events; the numbering is unchanged if the presser already had a list there |
| `Loading.LoadEventsAsWritten` | index.js:96-103 | without a saved file, `events` is the object `{}`; with one, it is the saved array |
| `Loading.PushAsWritten` | index.js:148 | `events.push` succeeds exactly when `events` is an array |
| `Loading.ListAsWritten` | index.js:205-216 | `!p` throws exactly when `events` is not an array |
| `Loading.FreshStartCannotAddEvents` | index.js:23 | on a fresh start, `!addevent` throws for every scraped event and `!p` throws |
| `Loading.LoadEvents` | index.js:96-103 | the corrected start: the saved events, or the empty array without a file; with a file it agrees with the code as written |
| `Loading.FreshStartAddsEvent` | index.js:148-152 | from the corrected start, a scraped event is pushed and `!p` then offers it |

## Left out

- The Discord client is not modelled: login, the `ready` handler, `isButton` filtering, and the actual sending and updating of messages. A reply is returned as a value instead. Buttons are (custom id, caption) pairs; their styles and the `ActionRowBuilder` objects are not modelled.
- Discord refuses action rows of more than five buttons. `!p` and `!mypredictions` put every button in one row, so with more than five events the send is refused. That limit lives in the foreign SDK and is not modelled.
- The page fetch (axios) and the CSS selector traversal (cheerio) are not modelled. A page arrives as its trimmed heading and, for each listing row, the four trimmed name strings; a failed fetch arrives as `None`.
- The `events.json` and `predictions.json` reads and writes, `JSON.parse` and `JSON.stringify`, are file I/O and are not modelled. The model does not save after a prediction or an added event. `saveData` is never called by the source.
- Console logging is not modelled.
- Asynchrony is not modelled. `!addevent` pushes its event when the scrape resolves; here that happens immediately, so an interleaving with other handlers cannot be expressed.
- Js.ToLower: lower-cases only the ASCII letters. JavaScript's `toLowerCase` is full Unicode. Message text outside ASCII is therefore not lower-cased as the source would.
- `Object.keys` lists integer-like keys first, in ascending order. The model keeps every event key in insertion order, so an event whose name is a decimal number is not ordered as in JavaScript.
- An event named like an `Object.prototype` member (`constructor`, `__proto__`, ...) behaves differently in JavaScript property lookup. Event names are treated as plain keys.
- Js.At: does not cap array indices at 2^32 - 2. Any canonical digit string names an index, which changes nothing because an index beyond the array gives `undefined` either way.
- Js.At: treats every key that is not a canonical index as `undefined`. In JavaScript `a["length"]` is a number and prototype members such as `a["map"]` are functions, so a hand-crafted id with such a token behaves differently (for example, `predict-0-length-1` would store `undefined vs undefined`). The bot never builds such ids.
- Bot.Bot.OnMessage: uses `Commands.ClassifyCorrected`, the corrected comparison from Findings. With the comparison as written (`Commands.Classify`), the next-event branch is dead code.
- The model starts `events` from `Loading.LoadEvents`, the corrected start from Findings, not from the `{}` the code leaves.

## Findings

| source | as written | input that shows it | evidently intended | confidence | as-written member | corrected member |
|---|---|---|---|---|---|---|
| index.js:194 | the command is lower-cased at line 132 and then compared with `"!showNextEvent"`, which contains capitals | the message `!showNextEvent`, in any letter case | the next-event branch runs for `!showNextEvent`, like the other commands, which are compared in lower case | high (not executed) | `Commands.ShowNextEventUnreachable` | `Commands.ClassifyCorrected` |
| index.js:102 | without `events.json`, `events` becomes `{}`, yet it is used as an array (`push` at line 148, `length` and `map` at lines 206-211) | a first start without `events.json`, then `!addevent <url>` for a page that scrapes; or `!p` | start from an empty array, so the first scraped event is stored and listed | high (not executed) | `Loading.FreshStartCannotAddEvents` | `Loading.LoadEvents` |

=== FILE: bot.dfy ===
/**
 * The bot itself: the global `events` list and `predictions` store, the
 * `messageCreate` handler that dispatches typed commands and the
 * `interactionCreate` handler that dispatches button presses by custom id.
 * A button is its (custom id, label) pair; a reply is what the handler
 * sends, or the TypeError it would throw on an `undefined` lookup.
 */
module Bot {
  import opened Options
  import opened Js
  import opened CustomIds
  import opened Commands
  import opened Scraping
  import opened Chunking
  import opened Predictions

  datatype Button = Button(customId: string, caption: string)

  /** The `undefined` value a handler dereferences. */
  datatype Undefined = NoEvent | NoFight | NoEventPredictions | NoUserPredictions

  datatype Reply =
    | Send(content: string, rows: seq<seq<Button>>)            // message.channel.send
    | Update(content: string, components: Option<seq<seq<Button>>>)  // interaction.update; None keeps the rows
    | Silent
    | Throws(cause: Undefined)

  /** The three characters the source file holds for the arrow in the prediction listing. */
  const Arrow := "\U{E2}\U{17E}\U{A1}"

  // ---------------------------------------------------------------- commands

  /** `!p`: one button per event, numbered by position. */
  function EventButtons(events: seq<Event>): (buttons: seq<Button>)
    ensures |buttons| == |events|
    ensures forall i :: 0 <= i < |events| ==> buttons[i].caption == events[i].eventName
  {
    seq(|events|, i requires 0 <= i < |events| =>
      Button(SelectEventId(NatToString(i)), events[i].eventName))
  }

  /** `!p`: nothing to offer without events, else one row holding a button per event, labelled with its name. */
  function ListEventsReply(events: seq<Event>): (r: Reply)
    ensures r.Send? && (r.rows == [] <==> |events| == 0)
    ensures r.rows != [] ==>
              && |r.rows| == 1 && |r.rows[0]| == |events|
              && forall i :: 0 <= i < |events| ==> r.rows[0][i].caption == events[i].eventName
  {
    if |events| == 0 then Send("No upcoming events available.", [])
    else Send("Select an event to predict on:", [EventButtons(events)])
  }

  /** `!mypredictions`: one button per event the author has a list on, numbered in key order. */
  function UserEventButtons(userEvents: seq<string>): (buttons: seq<Button>)
    ensures |buttons| == |userEvents|
    ensures forall i :: 0 <= i < |userEvents| ==> buttons[i].caption == userEvents[i]
  {
    seq(|userEvents|, i requires 0 <= i < |userEvents| =>
      Button(ViewPredictionsId(NatToString(i)), userEvents[i]))
  }

  /**
   * `!mypredictions`: no buttons exactly when the author has no list on any
   * event, else one row labelled with the author's events in key order.
   */
  function MyPredictionsReply(t: Table, userId: string): (r: Reply)
    ensures r.Send? && (r.rows == [] <==> UserEvents(t, userId) == [])
    ensures WellFormed(t) ==> (r.rows == [] <==> forall e :: !HasList(t, e, userId))
    ensures r.rows != [] ==>
              && |r.rows| == 1 && |r.rows[0]| == |UserEvents(t, userId)|
              && forall i :: 0 <= i < |r.rows[0]| ==> r.rows[0][i].caption == UserEvents(t, userId)[i]
  {
    if |t.order| == 0 then Send("You haven't made any predictions yet.", [])
    else
      var userEvents := UserEvents(t, userId);
      if |userEvents| == 0 then Send("You have no predictions for any events.", [])
      else
        assert HasList(t, userEvents[0], userId);
        Send("Select an event to view your predictions:", [UserEventButtons(userEvents)])
  }

  function FightLines(fights: seq<Fight>, from: nat): string
    decreases |fights|
  {
    if fights == [] then ""
    else "#" + NatToString(from) + ": " + FightLabel(fights[0]) + "\n" + FightLines(fights[1..], from + 1)
  }

  /** `!showNextEvent`: the first event and its numbered fights; `events[0]` is `undefined` when there is none. */
  function NextEventReply(events: seq<Event>): (r: Reply)
    ensures r.Throws? <==> |events| == 0
    ensures r.Send? ==>
              var head := "Next Event: **" + events[0].eventName + "**";
              r.rows == [] && |head| <= |r.content| && r.content[..|head|] == head
  {
    if |events| == 0 then Throws(NoEvent)
    else
      var e := events[0];
      Send("Next Event: **" + e.eventName + "**\nDate: " + e.date + "\nFights:\n" + FightLines(e.fights, 0), [])
  }

  const NeedUrl := "Please provide a valid UFC event URL."
  const ScrapeFailed := "Failed to scrape event data."

  function Added(e: Event): string
  {
    "Event \"" + e.eventName + "\" added successfully with " + NatToString(|e.fights|) + " fights."
  }

  /** `args[0]` is falsy: missing or empty. */
  predicate NoUrl(args: seq<string>) { |args| == 0 || args[0] == "" }

  // ----------------------------------------------------------------- buttons

  /** The fight buttons of an event, whose index token is re-embedded as it was read. */
  function FightButtons(e: Event, eventIndex: string): (buttons: seq<Button>)
    ensures |buttons| == |e.fights|
  {
    seq(|e.fights|, i requires 0 <= i < |e.fights| =>
      Button(SelectFightId(eventIndex, NatToString(i)), FightLabel(e.fights[i])))
  }

  /** `selectEvent` and `backToFights`: the event's fights laid out five to a row. */
  function FightMenu(events: seq<Event>, eventIndex: Option<string>): (r: Reply)
    ensures r.Throws? <==> At(events, eventIndex).None?
    ensures r.Update? ==>
              var buttons := FightButtons(At(events, eventIndex).value, eventIndex.value);
              && r.components.Some?
              && Flatten(r.components.value) == buttons
              && |r.components.value| == (|buttons| + RowWidth - 1) / RowWidth
              && forall i :: 0 <= i < |r.components.value| ==> 1 <= |r.components.value[i]| <= RowWidth
  {
    match At(events, eventIndex)
    case None => Throws(NoEvent)
    case Some(e) =>
      var buttons := FightButtons(e, eventIndex.value);
      ChunksFlatten(buttons);
      ChunksRowSizes(buttons);
      ChunksCount(buttons);
      Update("Select a fight for event: **" + e.eventName + "**",
             Some(Chunks(FightButtons(e, eventIndex.value))))
  }

  /** The same screen, built the way the handlers build it: map to buttons, then drain into rows. */
  method BuildFightMenu(events: seq<Event>, eventIndex: Option<string>) returns (reply: Reply)
    ensures reply == FightMenu(events, eventIndex)
    ensures reply.Update? ==>
              && reply.components.Some?
              && Flatten(reply.components.value) == FightButtons(At(events, eventIndex).value, eventIndex.value)
              && forall i :: 0 <= i < |reply.components.value| ==> 1 <= |reply.components.value[i]| <= RowWidth
  {
    var selectedEvent := At(events, eventIndex);
    if selectedEvent.None? {
      return Throws(NoEvent);
    }
    var fightButtons := FightButtons(selectedEvent.value, eventIndex.value);
    var rows := ChunkRows(fightButtons);
    reply := Update("Select a fight for event: **" + selectedEvent.value.eventName + "**", Some(rows));
  }

  /**
   * `selectFight`: it throws exactly when a winner press with the same tokens
   * would, and otherwise offers, under the label of the fight such a press
   * stores, one button per pick the press would store, then "Back".
   */
  function SelectFightScreen(events: seq<Event>, eventIndex: Option<string>, fightIndex: Option<string>): (r: Reply)
    ensures r.Throws? <==> PredictionOf(events, eventIndex, fightIndex, None).None?
    ensures r.Throws? ==> (r.cause == NoEvent <==> At(events, eventIndex).None?) && r.cause in {NoEvent, NoFight}
    ensures r.Update? ==>
              var p1 := PredictionOf(events, eventIndex, fightIndex, Some("1")).value.1;
              var p2 := PredictionOf(events, eventIndex, fightIndex, Some("2")).value.1;
              && r.content == "Who do you predict will win: " + p1.fight + "?"
              && r.components.Some? && |r.components.value| == 1 && |r.components.value[0]| == 3
              && r.components.value[0][0].caption == "Predict " + p1.prediction
              && r.components.value[0][1].caption == "Predict " + p2.prediction
              && r.components.value[0][2].caption == "Back"
  {
    match At(events, eventIndex)
    case None => Throws(NoEvent)
    case Some(e) =>
      match At(e.fights, fightIndex)
      case None => Throws(NoFight)
      case Some(f) =>
        var ev, fi := eventIndex.value, fightIndex.value;
        Update("Who do you predict will win: " + FightLabel(f) + "?",
               Some([[Button(PredictId(ev, fi, "1"), "Predict " + f.fighter1),
                      Button(PredictId(ev, fi, "2"), "Predict " + f.fighter2),
                      Button(BackToFightsId(ev), "Back")]]))
  }

  /** What `predict` stores: the event's name and the record, or the lookup that fails first. */
  function PredictionOf(events: seq<Event>, eventIndex: Option<string>, fightIndex: Option<string>,
                        fighterIndex: Option<string>): (r: Option<(string, Prediction)>)
    ensures r.Some? <==> At(events, eventIndex).Some? && At(At(events, eventIndex).value.fights, fightIndex).Some?
    ensures r.Some? ==> r.value.0 == At(events, eventIndex).value.eventName
    ensures r.Some? ==>
              var f := At(At(events, eventIndex).value.fights, fightIndex).value;
              && r.value.1.fight == FightLabel(f)
              && (fighterIndex == Some("1") ==> r.value.1.prediction == f.fighter1)
              && (fighterIndex != Some("1") ==> r.value.1.prediction == f.fighter2)
  {
    match At(events, eventIndex)
    case None => None
    case Some(e) =>
      match At(e.fights, fightIndex)
      case None => None
      case Some(f) => Some((e.eventName, Prediction(FightLabel(f), PickFighter(f, fighterIndex))))
  }

  function Saved(p: Prediction): string
  {
    "Prediction saved! You predict " + p.prediction + " will win the fight: " + p.fight + "."
  }

  function PredictionLines(ps: seq<Prediction>): string
    decreases |ps|
  {
    if ps == [] then ""
    else ps[0].fight + "\n" + Arrow + " **Predicted Winner:** " + ps[0].prediction + "\n\n"
         + PredictionLines(ps[1..])
  }

  /**
   * `viewPredictions`: the author's list on the event at that position of
   * the filtered keys. An index outside the filter reads the key
   * "undefined", which throws unless such an event key exists.
   */
  function ViewPredictionsScreen(t: Table, eventIndex: Option<string>, userId: string): (r: Reply)
    ensures r.Update? || r.Throws?
    ensures r.Update? ==> r.components == Some([])
    ensures At(UserEvents(t, userId), eventIndex).Some? ==>
              var e := At(UserEvents(t, userId), eventIndex).value;
              r == Update("Your Predictions for **" + e + "**:\n" + PredictionLines(List(t, e, userId)), Some([]))
    ensures At(UserEvents(t, userId), eventIndex).None? ==> (r.Update? <==> HasList(t, "undefined", userId))
  {
    var selected := At(UserEvents(t, userId), eventIndex);
    var key := if selected.Some? then selected.value else "undefined";
    if key !in t.entries then Throws(NoEventPredictions)
    else if userId !in t.entries[key] then Throws(NoUserPredictions)
    else Update("Your Predictions for **" + key + "**:\n" + PredictionLines(t.entries[key][userId]), Some([]))
  }

  // ------------------------------------------------------------- the bot

  class Bot {
    var events: seq<Event>
    var predictions: Table

    ghost predicate Valid()
      reads this
    {
      WellFormed(predictions)
    }

    /** The state `loadData` leaves: the saved events (or none) and the saved predictions. */
    constructor (events: seq<Event>, predictions: Table)
      requires WellFormed(predictions)
      ensures Valid() && this.events == events && this.predictions == predictions
    {
      this.events := events;
      this.predictions := predictions;
    }

    /** `predictions[eventName][userId].push(p)`, creating the two levels first when missing. */
    method RecordPrediction(eventName: string, userId: string, p: Prediction)
      requires Valid()
      modifies this
      ensures Valid()
      ensures predictions == Record(old(predictions), eventName, userId, p)
      ensures events == old(events)
    {
      ghost var before := predictions;
      ghost var oldUsers := if eventName in before.entries then before.entries[eventName] else map[];
      ghost var oldList := if userId in oldUsers then oldUsers[userId] else [];
      if eventName !in predictions.entries {
        predictions := Table(predictions.order + [eventName], predictions.entries[eventName := map[]]);
      }
      var users := predictions.entries[eventName];
      if userId !in users {
        predictions := predictions.(entries := predictions.entries[eventName := users[userId := []]]);
      }
      users := predictions.entries[eventName];
      predictions := predictions.(entries := predictions.entries[eventName := users[userId := users[userId] + [p]]]);
      assert users[userId := users[userId] + [p]] == oldUsers[userId := oldList + [p]];
    }

    /** `events.push(...)` of a scraped event. */
    method PushEvent(e: Event)
      requires Valid()
      modifies this
      ensures Valid()
      ensures events == old(events) + [e] && predictions == old(predictions)
    {
      events := events + [e];
    }

    /**
     * `messageCreate`. The page is what fetching `args[0]` yields (`None`
     * when the fetch fails); it is only looked at by `!addevent`.
     */
    method OnMessage(content: string, fromBot: bool, authorId: string, page: Option<Page>)
      returns (reply: Reply)
      requires Valid()
      modifies this
      ensures Valid() && predictions == old(predictions)
      ensures var t := Tokenize(content);
              var command := ClassifyCorrected(t.command);
              && (fromBot || command != AddEvent ==> events == old(events))
              && (fromBot ==> reply == Silent)
              && (!fromBot && command == AddEvent ==>
                    if NoUrl(t.args) then reply == Send(NeedUrl, []) && events == old(events)
                    else match ScrapedEvent(page)
                      case None => reply == Send(ScrapeFailed, []) && events == old(events)
                      case Some(e) => reply == Send(Added(e), []) && events == old(events) + [e])
              && (!fromBot && command == MyPredictions ==> reply == MyPredictionsReply(predictions, authorId))
              && (!fromBot && command == ShowNextEvent ==> reply == NextEventReply(events))
              && (!fromBot && command == ListEvents ==> reply == ListEventsReply(events))
              && (!fromBot && command == Unknown ==> reply == Silent)
    {
      if fromBot {
        return Silent;
      }
      var t := Tokenize(content);
      var command := ClassifyCorrected(t.command);
      match command
      case AddEvent =>
        if NoUrl(t.args) {
          return Send(NeedUrl, []);
        }
        var eventData := ScrapeEvent(page);
        if eventData.None? {
          return Send(ScrapeFailed, []);
        }
        PushEvent(eventData.value);
        reply := Send(Added(eventData.value), []);
      case MyPredictions => reply := MyPredictionsReply(predictions, authorId);
      case ShowNextEvent => reply := NextEventReply(events);
      case ListEvents => reply := ListEventsReply(events);
      case Unknown => reply := Silent;
    }

    /** `interactionCreate` for a button press. */
    method OnButton(customId: string, userId: string) returns (reply: Reply)
      requires Valid()
      modifies this
      ensures Valid() && events == old(events)
      ensures var d := Decode(customId);
              && (d.kind != Predict ==> predictions == old(predictions))
              && (d.kind == SelectEvent || d.kind == BackToFights ==> reply == FightMenu(events, d.eventIndex))
              && (d.kind == SelectFight ==> reply == SelectFightScreen(events, d.eventIndex, d.fightIndex))
              && (d.kind == Predict ==>
                    match PredictionOf(events, d.eventIndex, d.fightIndex, d.fighterIndex)
                    case None => reply == Throws(if At(events, d.eventIndex).None? then NoEvent else NoFight)
                                 && predictions == old(predictions)
                    case Some((name, p)) =>
                      reply == Update(Saved(p), None)
                      && predictions == Record(old(predictions), name, userId, p))
              && (d.kind == ViewPredictions ==> reply == ViewPredictionsScreen(predictions, d.eventIndex, userId))
              && (d.kind !in {SelectEvent, BackToFights, SelectFight, Predict, ViewPredictions} ==> reply == Silent)
    {
      var d := Decode(customId);
      if d.kind == SelectEvent || d.kind == BackToFights {
        reply := BuildFightMenu(events, d.eventIndex);
      } else if d.kind == SelectFight {
        reply := SelectFightScreen(events, d.eventIndex, d.fightIndex);
      } else if d.kind == Predict {
        var selectedEvent := At(events, d.eventIndex);
        if selectedEvent.None? {
          return Throws(NoEvent);
        }
        var selectedFight := At(selectedEvent.value.fights, d.fightIndex);
        if selectedFight.None? {
          return Throws(NoFight);
        }
        var f := selectedFight.value;
        var p := Prediction(FightLabel(f), PickFighter(f, d.fighterIndex));
        RecordPrediction(selectedEvent.value.eventName, userId, p);
        reply := Update(Saved(p), None);
      } else if d.kind == ViewPredictions {
        reply := ViewPredictionsScreen(predictions, d.eventIndex, userId);
      } else {
        reply := Silent;
      }
    }
  }
}

=== FILE: chunking.dfy ===
/**
 * Laying fight buttons out in action rows: the handler drains its list of
 * buttons with `splice(0, 5)` and pushes each removed slice as one row.
 */
module Chunking {
  /** The most buttons one row takes. */
  const RowWidth := 5

  /** `list.splice(0, count)`: the removed front part and what stays in the list. */
  function SpliceFront<T>(list: seq<T>, count: nat): (r: (seq<T>, seq<T>))
    ensures r.0 + r.1 == list
    ensures |r.0| == if |list| < count then |list| else count
  {
    var k := if |list| < count then |list| else count;
    (list[..k], list[k..])
  }

  /** The rows the draining loop produces, as a specification. */
  function Chunks<T>(list: seq<T>): seq<seq<T>>
    decreases |list|
  {
    if list == [] then []
    else
      var (row, rest) := SpliceFront(list, RowWidth);
      [row] + Chunks(rest)
  }

  function Flatten<T>(rows: seq<seq<T>>): seq<T>
    decreases |rows|
  {
    if rows == [] then [] else rows[0] + Flatten(rows[1..])
  }

  /** Concatenating the rows in order gives back the original list. */
  lemma {:induction false} ChunksFlatten<T>(list: seq<T>)
    ensures Flatten(Chunks(list)) == list
    decreases |list|
  {
    if list != [] {
      ChunksFlatten(SpliceFront(list, RowWidth).1);
    }
  }

  /** Every row holds one to five buttons, and every row but the last exactly five. */
  lemma {:induction false} ChunksRowSizes<T>(list: seq<T>)
    ensures forall i :: 0 <= i < |Chunks(list)| ==> 1 <= |Chunks(list)[i]| <= RowWidth
    ensures forall i :: 0 <= i < |Chunks(list)| - 1 ==> |Chunks(list)[i]| == RowWidth
    decreases |list|
  {
    if list != [] {
      ChunksRowSizes(SpliceFront(list, RowWidth).1);
    }
  }

  /** There are ceil(n / 5) rows for n buttons. */
  lemma {:induction false} ChunksCount<T>(list: seq<T>)
    ensures |Chunks(list)| == (|list| + RowWidth - 1) / RowWidth
    decreases |list|
  {
    if list != [] {
      ChunksCount(SpliceFront(list, RowWidth).1);
    }
  }

  /**
   * `while (fightButtons.length > 0) fightButtonRows.push(fightButtons.splice(0, 5))`.
   * The loop ends because each splice removes at least one button.
   */
  method ChunkRows<T>(buttons: seq<T>) returns (fightButtonRows: seq<seq<T>>)
    ensures fightButtonRows == Chunks(buttons)
    ensures Flatten(fightButtonRows) == buttons
    ensures forall i :: 0 <= i < |fightButtonRows| ==> 1 <= |fightButtonRows[i]| <= RowWidth
    ensures |fightButtonRows| == (|buttons| + RowWidth - 1) / RowWidth
  {
    var fightButtons := buttons;
    fightButtonRows := [];
    while |fightButtons| > 0
      invariant fightButtonRows + Chunks(fightButtons) == Chunks(buttons)
      decreases |fightButtons|
    {
      var (row, rest) := SpliceFront(fightButtons, RowWidth);
      fightButtonRows := fightButtonRows + [row];
      fightButtons := rest;
    }
    ChunksFlatten(buttons);
    ChunksRowSizes(buttons);
    ChunksCount(buttons);
  }
}

=== FILE: commands.dfy ===
/**
 * Reading a chat message: the content is split on single spaces, the first
 * word is lower-cased and becomes the command, the remaining words are the
 * positional arguments, and the command is compared with the literals of
 * the handler's `if` chain.
 */
module Commands {
  import opened Js

  const Space := ' '

  datatype Tokens = Tokens(command: string, args: seq<string>)

  /** `args = content.split(" ")`, then `command = args.shift().toLowerCase()`. */
  function Tokenize(content: string): (t: Tokens)
    ensures forall i :: 0 <= i < |t.command| ==> !IsUpper(t.command[i])
    ensures Space !in t.command && Free(t.args, Space)
  {
    var words := Split(content, Space);
    Tokens(ToLower(words[0]), words[1..])
  }

  /** Tokenising a message of space-free words gives the first word lower-cased and the rest in order. */
  lemma TokenizeWords(words: seq<string>)
    requires |words| >= 1 && Free(words, Space)
    ensures Tokenize(Join(words, Space)) == Tokens(ToLower(words[0]), words[1..])
  {
    SplitJoin(words, Space);
  }

  /** The lower-cased command and the arguments, joined back, have the message's length. */
  lemma TokenizeLength(content: string)
    ensures var t := Tokenize(content);
            |Join([t.command] + t.args, Space)| == |content|
  {
    var words := Split(content, Space);
    JoinSplit(content, Space);
    JoinSameLengths(words, [ToLower(words[0])] + words[1..]);
  }

  lemma {:induction false} JoinSameLengths(a: seq<string>, b: seq<string>)
    requires |a| == |b| >= 1
    requires forall i :: 0 <= i < |a| ==> |a[i]| == |b[i]|
    ensures |Join(a, Space)| == |Join(b, Space)|
    decreases |a|
  {
    if |a| > 1 {
      JoinSameLengths(a[1..], b[1..]);
    }
  }

  /** The commands of the message handler's `if` chain. */
  datatype Command = AddEvent | MyPredictions | ShowNextEvent | ListEvents | Unknown

  /** The comparisons as written: `"!addevent"`, `"!mypredictions"`, `"!showNextEvent"`, `"!p"`. */
  function Classify(command: string): (c: Command)
    ensures c == AddEvent <==> command == "!addevent"
    ensures c == MyPredictions <==> command == "!mypredictions"
    ensures c == ShowNextEvent <==> command == "!showNextEvent"
    ensures c == ListEvents <==> command == "!p"
  {
    if command == "!addevent" then AddEvent
    else if command == "!mypredictions" then MyPredictions
    else if command == "!showNextEvent" then ShowNextEvent
    else if command == "!p" then ListEvents
    else Unknown
  }

  /** The `!showNextEvent` branch can never fire: the command it is compared with is lower-cased. */
  lemma ShowNextEventUnreachable(content: string)
    ensures Classify(Tokenize(content).command) != ShowNextEvent
  {
    var c := Tokenize(content).command;
    if |c| == 14 {
      assert !IsUpper(c[5]) && IsUpper("!showNextEvent"[5]);
    }
  }

  /** The comparisons with the next-event literal lower-cased, like the other three. */
  function ClassifyCorrected(command: string): (c: Command)
    ensures command != "!showNextEvent" && c != ShowNextEvent ==> c == Classify(command)
    ensures c == ShowNextEvent <==> command == "!shownextevent"
  {
    if command == "!addevent" then AddEvent
    else if command == "!mypredictions" then MyPredictions
    else if command == "!shownextevent" then ShowNextEvent
    else if command == "!p" then ListEvents
    else Unknown
  }

  /** With the corrected comparison, the message `!showNextEvent` reaches its branch, in any letter case. */
  lemma ShowNextEventReachable(content: string)
    requires ToLower(Split(content, Space)[0]) == "!shownextevent"
    ensures ClassifyCorrected(Tokenize(content).command) == ShowNextEvent
  {
  }
}

=== FILE: custom_ids.dfy ===
/**
 * The custom ids the bot attaches to its buttons: hyphen-joined tokens
 * `kind-eventIndex-fightIndex-fighterIndex`, built with template literals
 * and read back by one `split("-")` and a four-way destructuring.
 */
module CustomIds {
  import opened Options
  import opened Js

  const Hyphen := '-'

  const SelectEvent := "selectEvent"
  const SelectFight := "selectFight"
  const Predict := "predict"
  const ViewPredictions := "viewPredictions"
  const BackToFights := "backToFights"

  /** The four positions of `const [type, eventIndex, fightIndex, fighterIndex]`. */
  datatype Decoded = Decoded(
    kind: string,
    eventIndex: Option<string>,
    fightIndex: Option<string>,
    fighterIndex: Option<string>)

  function Nth(fields: seq<string>, i: nat): Option<string>
  {
    if i < |fields| then Some(fields[i]) else None
  }

  /** Destructure `customId.split("-")`: missing positions are `undefined`, surplus ones dropped. */
  function Decode(customId: string): (d: Decoded)
    ensures Hyphen !in d.kind
    ensures d.kind == customId <==> Hyphen !in customId
    ensures d.eventIndex.None? <==> Hyphen !in customId
    ensures forall t :: t in [d.eventIndex, d.fightIndex, d.fighterIndex] && t.Some? ==> Hyphen !in t.value
  {
    var fields := Split(customId, Hyphen);
    SplitSingle(customId, Hyphen);
    Decoded(fields[0], Nth(fields, 1), Nth(fields, 2), Nth(fields, 3))
  }

  /** `selectEvent-${index}` (the `!p` event buttons). */
  function SelectEventId(event: string): string { SelectEvent + "-" + event }

  /** `viewPredictions-${index}` (the `!mypredictions` event buttons). */
  function ViewPredictionsId(event: string): string { ViewPredictions + "-" + event }

  /** `selectFight-${eventIndex}-${index}` (the fight buttons). */
  function SelectFightId(event: string, fight: string): string
  {
    SelectFight + "-" + event + "-" + fight
  }

  /** `predict-${eventIndex}-${fightIndex}-1` and `-2` (the winner buttons). */
  function PredictId(event: string, fight: string, fighter: string): string
  {
    Predict + "-" + event + "-" + fight + "-" + fighter
  }

  /** `backToFights-${eventIndex}` (the back button). */
  function BackToFightsId(event: string): string { BackToFights + "-" + event }

  /** Decoding a join of one to four hyphen-free tokens gives each token back in its position. */
  lemma DecodeJoin(fields: seq<string>)
    requires 1 <= |fields| <= 4 && Free(fields, Hyphen)
    ensures Decode(Join(fields, Hyphen))
         == Decoded(fields[0], Nth(fields, 1), Nth(fields, 2), Nth(fields, 3))
  {
    SplitJoin(fields, Hyphen);
    var s := Join(fields, Hyphen);
    if |fields| > 1 {
      assert s == fields[0] + [Hyphen] + Join(fields[1..], Hyphen);
      assert Hyphen in s by { assert s[|fields[0]|] == Hyphen; }
    } else {
      assert Hyphen !in s;
    }
  }

  lemma DecodeSelectEventId(event: string)
    requires Hyphen !in event
    ensures Decode(SelectEventId(event)) == Decoded(SelectEvent, Some(event), None, None)
  {
    assert SelectEventId(event) == Join([SelectEvent, event], Hyphen);
    DecodeJoin([SelectEvent, event]);
  }

  lemma DecodeViewPredictionsId(event: string)
    requires Hyphen !in event
    ensures Decode(ViewPredictionsId(event)) == Decoded(ViewPredictions, Some(event), None, None)
  {
    assert ViewPredictionsId(event) == Join([ViewPredictions, event], Hyphen);
    DecodeJoin([ViewPredictions, event]);
  }

  lemma DecodeSelectFightId(event: string, fight: string)
    requires Hyphen !in event && Hyphen !in fight
    ensures Decode(SelectFightId(event, fight)) == Decoded(SelectFight, Some(event), Some(fight), None)
  {
    assert [SelectFight, event, fight][1..] == [event, fight];
    assert [event, fight][1..] == [fight];
    assert Join([event, fight], Hyphen) == event + "-" + fight;
    assert SelectFightId(event, fight) == Join([SelectFight, event, fight], Hyphen);
    DecodeJoin([SelectFight, event, fight]);
  }

  lemma DecodePredictId(event: string, fight: string, fighter: string)
    requires Hyphen !in event && Hyphen !in fight && Hyphen !in fighter
    ensures Decode(PredictId(event, fight, fighter))
         == Decoded(Predict, Some(event), Some(fight), Some(fighter))
  {
    assert [Predict, event, fight, fighter][1..] == [event, fight, fighter];
    assert [event, fight, fighter][1..] == [fight, fighter];
    assert [fight, fighter][1..] == [fighter];
    assert Join([fight, fighter], Hyphen) == fight + "-" + fighter;
    assert Join([event, fight, fighter], Hyphen) == event + "-" + fight + "-" + fighter;
    assert PredictId(event, fight, fighter) == Join([Predict, event, fight, fighter], Hyphen);
    DecodeJoin([Predict, event, fight, fighter]);
  }

  lemma DecodeBackToFightsId(event: string)
    requires Hyphen !in event
    ensures Decode(BackToFightsId(event)) == Decoded(BackToFights, Some(event), None, None)
  {
    assert BackToFightsId(event) == Join([BackToFights, event], Hyphen);
    DecodeJoin([BackToFights, event]);
  }

  /** Index tokens are digits, so they survive the hyphen split. */
  lemma IndexTokenHyphenFree(tok: string)
    requires IsCanonical(tok)
    ensures Hyphen !in tok
  {
  }
}

=== FILE: flows.dfy ===
/**
 * The button screens read back what they encode: every button a screen
 * builds, when pressed, is decoded by the interaction handler into the
 * event, fight or pick it was labelled with. The handlers keep no state
 * between screens, so these are the properties that make the flow
 * "select event, select fight, predict, view" hang together.
 */
module Flows {
  import opened Options
  import opened Js
  import opened CustomIds
  import opened Scraping
  import opened Predictions
  import opened Bot

  /** The i-th `!p` button selects the i-th event and is labelled with its name. */
  lemma EventButtonResolves(events: seq<Event>, i: nat)
    requires i < |events|
    ensures var reply := ListEventsReply(events);
            && reply.Send? && |reply.rows| == 1 && |reply.rows[0]| == |events|
            && var b := reply.rows[0][i];
               var d := Decode(b.customId);
               && d.kind == SelectEvent
               && At(events, d.eventIndex) == Some(events[i])
               && b.caption == events[i].eventName
  {
    var tok := NatToString(i);
    IndexTokenHyphenFree(tok);
    DecodeSelectEventId(tok);
    AtIndex(events, None, i);
  }

  /** The i-th fight button of an event's menu selects that event's i-th fight. */
  lemma FightButtonResolves(events: seq<Event>, eventIndex: string, i: nat)
    requires At(events, Some(eventIndex)).Some?
    requires i < |At(events, Some(eventIndex)).value.fights|
    ensures var e := At(events, Some(eventIndex)).value;
            var b := FightButtons(e, eventIndex)[i];
            var d := Decode(b.customId);
            && d.kind == SelectFight
            && d.eventIndex == Some(eventIndex)
            && At(events, d.eventIndex) == Some(e)
            && At(e.fights, d.fightIndex) == Some(e.fights[i])
            && b.caption == FightLabel(e.fights[i])
  {
    var e := At(events, Some(eventIndex)).value;
    IndexTokenHyphenFree(eventIndex);
    var tok := NatToString(i);
    IndexTokenHyphenFree(tok);
    DecodeSelectFightId(eventIndex, tok);
    AtIndex(e.fights, None, i);
  }

  /**
   * On a fight's screen the first button records its first fighter, the
   * second its second fighter, and the back button reopens the same fight
   * menu as the event's selection did.
   */
  lemma WinnerButtonsPick(events: seq<Event>, eventIndex: string, fightIndex: string)
    requires At(events, Some(eventIndex)).Some?
    requires At(At(events, Some(eventIndex)).value.fights, Some(fightIndex)).Some?
    ensures var e := At(events, Some(eventIndex)).value;
            var f := At(e.fights, Some(fightIndex)).value;
            var reply := SelectFightScreen(events, Some(eventIndex), Some(fightIndex));
            && reply.Update? && reply.components.Some? && |reply.components.value| == 1
            && |reply.components.value[0]| == 3
            && var row := reply.components.value[0];
               var d1, d2, back := Decode(row[0].customId), Decode(row[1].customId), Decode(row[2].customId);
               && d1.kind == Predict && d2.kind == Predict && back.kind == BackToFights
               && PredictionOf(events, d1.eventIndex, d1.fightIndex, d1.fighterIndex)
                  == Some((e.eventName, Prediction(FightLabel(f), f.fighter1)))
               && PredictionOf(events, d2.eventIndex, d2.fightIndex, d2.fighterIndex)
                  == Some((e.eventName, Prediction(FightLabel(f), f.fighter2)))
               && FightMenu(events, back.eventIndex) == FightMenu(events, Some(eventIndex))
  {
    var e := At(events, Some(eventIndex)).value;
    IndexTokenHyphenFree(eventIndex);
    IndexTokenHyphenFree(fightIndex);
    DecodePredictId(eventIndex, fightIndex, "1");
    DecodePredictId(eventIndex, fightIndex, "2");
    DecodeBackToFightsId(eventIndex);
  }

  /**
   * The i-th `!mypredictions` button opens the author's list on the event it
   * is labelled with: the button is numbered by the same filter, in the
   * same key order, that the `viewPredictions` handler resolves it with.
   */
  lemma UserEventButtonResolves(t: Table, userId: string, i: nat)
    requires WellFormed(t)
    requires i < |UserEvents(t, userId)|
    ensures var reply := MyPredictionsReply(t, userId);
            && reply.Send? && |reply.rows| == 1
            && var b := reply.rows[0][i];
               var d := Decode(b.customId);
               && d.kind == ViewPredictions
               && b.caption == UserEvents(t, userId)[i]
               && HasList(t, b.caption, userId)
               && ViewPredictionsScreen(t, d.eventIndex, userId)
                  == Update("Your Predictions for **" + b.caption + "**:\n"
                            + PredictionLines(List(t, b.caption, userId)), Some([]))
  {
    var userEvents := UserEvents(t, userId);
    var e := userEvents[i];
    assert e in userEvents;
    assert e in t.order;
    var tok := NatToString(i);
    IndexTokenHyphenFree(tok);
    DecodeViewPredictionsId(tok);
    AtIndex(userEvents, None, i);
  }

  /**
   * Pressing a winner button stores the pick at the end of the presser's
   * list on that event, after which the presser's events include it.
   */
  lemma PredictionIsListed(t: Table, events: seq<Event>, eventIndex: string, fightIndex: string,
                           fighter: string, userId: string)
    requires WellFormed(t)
    requires PredictionOf(events, Some(eventIndex), Some(fightIndex), Some(fighter)).Some?
    ensures var (name, p) := PredictionOf(events, Some(eventIndex), Some(fightIndex), Some(fighter)).value;
            var r := Record(t, name, userId, p);
            && name in UserEvents(r, userId)
            && List(r, name, userId) == List(t, name, userId) + [p]
            && (HasList(t, name, userId) ==> UserEvents(r, userId) == UserEvents(t, userId))
  {
    var (name, p) := PredictionOf(events, Some(eventIndex), Some(fightIndex), Some(fighter)).value;
    RecordUserEvents(t, name, userId, p);
  }
}

=== FILE: js.dfy ===
/** A value that may be missing: JavaScript's `undefined`. */
module Options {
  datatype Option<T> = None | Some(value: T)
}

/**
 * The few JavaScript built-ins the bot's data logic relies on, over
 * `string` = `seq<char>`: `String.prototype.split` with a one-character
 * separator (and its inverse, `Array.prototype.join`), ASCII
 * `toLowerCase`, the decimal rendering of a non-negative integer in a
 * template literal, and indexing an array with a string property key.
 */
module Js {
  import opened Options

  /** `s.split(sep)`: the maximal `sep`-free pieces of `s`, in order; never empty. */
  function Split(s: string, sep: char): (fields: seq<string>)
    ensures |fields| >= 1
    ensures forall i :: 0 <= i < |fields| ==> sep !in fields[i]
    decreases |s|
  {
    if s == [] then [""]
    else
      var rest := Split(s[1..], sep);
      if s[0] == sep then [""] + rest
      else [[s[0]] + rest[0]] + rest[1..]
  }

  /** `fields.join(sep)`. */
  function Join(fields: seq<string>, sep: char): string
    requires |fields| >= 1
    decreases |fields|
  {
    if |fields| == 1 then fields[0] else fields[0] + [sep] + Join(fields[1..], sep)
  }

  predicate Free(fields: seq<string>, sep: char)
  {
    forall i :: 0 <= i < |fields| ==> sep !in fields[i]
  }

  /** A separator-free string splits into itself alone. */
  lemma {:induction false} SplitFree(s: string, sep: char)
    requires sep !in s
    ensures Split(s, sep) == [s]
    decreases |s|
  {
    if s != [] {
      SplitFree(s[1..], sep);
      assert [s[0]] + s[1..] == s;
    }
  }

  /** Splitting `a + sep + rest` yields `a` followed by the pieces of `rest`. */
  lemma {:induction false} SplitCons(a: string, sep: char, rest: string)
    requires sep !in a
    ensures Split(a + [sep] + rest, sep) == [a] + Split(rest, sep)
    decreases |a|
  {
    var s := a + [sep] + rest;
    if a == [] {
      assert s[1..] == rest;
    } else {
      assert s[1..] == a[1..] + [sep] + rest;
      SplitCons(a[1..], sep, rest);
      assert [a[0]] + a[1..] == a;
    }
  }

  /** Splitting undoes joining fields that do not contain the separator. */
  lemma {:induction false} SplitJoin(fields: seq<string>, sep: char)
    requires |fields| >= 1 && Free(fields, sep)
    ensures Split(Join(fields, sep), sep) == fields
    decreases |fields|
  {
    if |fields| == 1 {
      SplitFree(fields[0], sep);
    } else {
      SplitJoin(fields[1..], sep);
      SplitCons(fields[0], sep, Join(fields[1..], sep));
      assert [fields[0]] + fields[1..] == fields;
    }
  }

  /** Joining undoes splitting: `s.split(sep).join(sep) == s` for every `s`. */
  lemma {:induction false} JoinSplit(s: string, sep: char)
    ensures Join(Split(s, sep), sep) == s
    decreases |s|
  {
    if s != [] {
      JoinSplit(s[1..], sep);
      var rest := Split(s[1..], sep);
      if s[0] != sep {
        if |rest| == 1 {
          assert Join(rest, sep) == rest[0];
        } else {
          assert rest == [rest[0]] + rest[1..];
          assert Join(rest, sep) == rest[0] + [sep] + Join(rest[1..], sep);
        }
        assert s == [s[0]] + s[1..];
      }
    }
  }

  /** A string splits into more than one piece exactly when it contains the separator. */
  lemma SplitSingle(s: string, sep: char)
    ensures |Split(s, sep)| == 1 <==> sep !in s
    ensures sep !in s ==> Split(s, sep) == [s]
  {
    JoinSplit(s, sep);
    if sep !in s {
      SplitFree(s, sep);
    }
  }

  predicate IsUpper(c: char) { 'A' <= c <= 'Z' }

  function LowerChar(c: char): (d: char)
    ensures !IsUpper(d)
    ensures IsUpper(c) ==> d as int == c as int + 32
    ensures !IsUpper(c) ==> d == c
  {
    if IsUpper(c) then (c as int + 32) as char else c
  }

  /** `s.toLowerCase()`, restricted to the ASCII letters. */
  function ToLower(s: string): (r: string)
    ensures |r| == |s|
    ensures forall i :: 0 <= i < |r| ==> !IsUpper(r[i])
    ensures forall i :: 0 <= i < |s| && !IsUpper(s[i]) ==> r[i] == s[i]
    ensures forall i :: 0 <= i < |s| && IsUpper(s[i]) ==> r[i] as int == s[i] as int + 32
  {
    seq(|s|, i requires 0 <= i < |s| => LowerChar(s[i]))
  }

  predicate IsDigit(c: char) { '0' <= c <= '9' }

  function DigitChar(d: nat): (c: char)
    requires d < 10
    ensures IsDigit(c) && c as int - '0' as int == d
  {
    (d + '0' as int) as char
  }

  /** A canonical array-index string: decimal digits without a leading zero. */
  predicate IsCanonical(tok: string)
  {
    && |tok| >= 1
    && (forall i :: 0 <= i < |tok| ==> IsDigit(tok[i]))
    && (tok[0] == '0' ==> |tok| == 1)
  }

  /** `${n}` in a template literal, for a non-negative integer `n`. */
  function NatToString(n: nat): (r: string)
    ensures IsCanonical(r)
    decreases n
  {
    if n < 10 then [DigitChar(n)] else NatToString(n / 10) + [DigitChar(n % 10)]
  }

  function DigitsValue(s: string): nat
    requires forall i :: 0 <= i < |s| ==> IsDigit(s[i])
    decreases |s|
  {
    if s == [] then 0
    else
      assert IsDigit(s[|s| - 1]);
      DigitsValue(s[..|s| - 1]) * 10 + (s[|s| - 1] as int - '0' as int)
  }

  /** The array index a property key denotes, if any. */
  function ParseIndex(tok: string): Option<nat>
  {
    if IsCanonical(tok) then Some(DigitsValue(tok)) else None
  }

  lemma {:induction false} ParseNatToString(n: nat)
    ensures ParseIndex(NatToString(n)) == Some(n)
    decreases n
  {
    var s := NatToString(n);
    if n < 10 {
      assert s[..|s| - 1] == [];
      assert DigitsValue(s) == DigitsValue(s[..|s| - 1]) * 10 + (s[0] as int - '0' as int);
    } else {
      ParseNatToString(n / 10);
      assert s[..|s| - 1] == NatToString(n / 10);
    }
  }

  lemma {:induction false} LeadingDigitPositive(s: string)
    requires |s| >= 1 && (forall i :: 0 <= i < |s| ==> IsDigit(s[i])) && s[0] != '0'
    ensures DigitsValue(s) >= 1
    decreases |s|
  {
    if |s| > 1 {
      LeadingDigitPositive(s[..|s| - 1]);
    }
  }

  lemma {:induction false} NatToStringParse(tok: string, n: nat)
    requires ParseIndex(tok) == Some(n)
    ensures NatToString(n) == tok
    decreases |tok|
  {
    if |tok| > 1 {
      var p := tok[..|tok| - 1];
      assert p[0] == tok[0];
      LeadingDigitPositive(p);
      assert ParseIndex(p) == Some(DigitsValue(p));
      NatToStringParse(p, DigitsValue(p));
      assert tok == p + [tok[|tok| - 1]];
    }
  }

  /** Decimal rendering is a bijection between naturals and canonical index strings. */
  lemma IndexRoundTrip(tok: string, n: nat)
    ensures ParseIndex(tok) == Some(n) <==> tok == NatToString(n)
  {
    if ParseIndex(tok) == Some(n) {
      NatToStringParse(tok, n);
    }
    if tok == NatToString(n) {
      ParseNatToString(n);
    }
  }

  /**
   * `a[key]` for a JavaScript array `a` and a property key that is a
   * string or `undefined`: the element when the key is the canonical
   * decimal of an index, `undefined` otherwise.
   */
  function At<T>(a: seq<T>, key: Option<string>): (r: Option<T>)
    ensures r.Some? ==> r.value in a
    ensures r.Some? <==> key.Some? && exists i :: 0 <= i < |a| && key.value == NatToString(i)
    ensures forall i :: 0 <= i < |a| && key == Some(NatToString(i)) ==> r == Some(a[i])
  {
    if key.None? then None
    else
      IndexKeys(key.value);
      match ParseIndex(key.value)
      case Some(i) =>
        if i < |a| then
          assert key.value == NatToString(i);
          Some(a[i])
        else None
      case None => None
  }

  /** A key denotes index n exactly when it is the rendering of n, for every n at once. */
  lemma IndexKeys(tok: string)
    ensures forall n: nat :: ParseIndex(tok) == Some(n) <==> tok == NatToString(n)
  {
    forall n: nat ensures ParseIndex(tok) == Some(n) <==> tok == NatToString(n) {
      IndexRoundTrip(tok, n);
    }
  }

  /**
   * Each element is reached by its own index rendered in decimal; when the
   * elements are distinct, a key reaching element i is that rendering.
   */
  lemma AtIndex<T>(a: seq<T>, key: Option<string>, i: nat)
    requires i < |a|
    ensures At(a, Some(NatToString(i))) == Some(a[i])
    ensures key.Some? && At(a, key) == Some(a[i]) && (forall j, k :: 0 <= j < k < |a| ==> a[j] != a[k])
            ==> key.value == NatToString(i)
  {
  }
}

=== FILE: loading.dfy ===
/**
 * What `loadData` leaves in `events`. As written, a missing `events.json`
 * leaves the object literal `{}`, while every use of `events` treats it as
 * an array (`push`, `length`, `map`, `events[0]`): on a fresh start no
 * event can ever be added. The rest of the model starts from an empty
 * array instead.
 */
module Loading {
  import opened Options
  import opened Scraping
  import opened Bot

  /** The JavaScript value `events` holds: the literal `{}` or a parsed array. */
  datatype EventsValue = EmptyObject | EventArray(items: seq<Event>)

  /** `loadData` as written: the parsed file, or `{}` when there is none. */
  function LoadEventsAsWritten(saved: Option<seq<Event>>): (v: EventsValue)
    ensures v.EmptyObject? <==> saved.None?
    ensures saved.Some? ==> v == EventArray(saved.value)
  {
    if saved.Some? then EventArray(saved.value) else EmptyObject
  }

  /** `events.push(e)`: `None` is the TypeError a plain object raises, having no `push`. */
  function PushAsWritten(v: EventsValue, e: Event): (r: Option<EventsValue>)
    ensures r.Some? <==> v.EventArray?
  {
    match v
    case EmptyObject => None
    case EventArray(items) => Some(EventArray(items + [e]))
  }

  /** `!p` as written: `None` when `{}.length === 0` is false and `{}.map` throws. */
  function ListAsWritten(v: EventsValue): (r: Option<Reply>)
    ensures r.Some? <==> v.EventArray?
  {
    match v
    case EmptyObject => None
    case EventArray(items) => Some(ListEventsReply(items))
  }

  /** Without a saved events file, `!addevent` throws on every scraped event, and `!p` throws too. */
  lemma FreshStartCannotAddEvents(e: Event)
    ensures PushAsWritten(LoadEventsAsWritten(None), e) == None
    ensures ListAsWritten(LoadEventsAsWritten(None)) == None
  {
  }

  /** `loadData` with `events = []` when there is no saved file. */
  function LoadEvents(saved: Option<seq<Event>>): (events: seq<Event>)
    ensures saved.Some? ==> events == saved.value
    ensures saved.None? ==> events == []
    ensures saved.Some? ==> LoadEventsAsWritten(saved) == EventArray(events)
  {
    if saved.Some? then saved.value else []
  }

  /**
   * From the corrected start, a scraped event is pushed like on any array,
   * and `!p` then offers it, instead of both throwing.
   */
  lemma FreshStartAddsEvent(e: Event)
    ensures PushAsWritten(EventArray(LoadEvents(None)), e) == Some(EventArray([e]))
    ensures ListEventsReply(LoadEvents(None) + [e])
         == Send("Select an event to predict on:", [EventButtons([e])])
  {
    assert LoadEvents(None) + [e] == [e];
  }
}

=== FILE: predictions.dfy ===
/**
 * The in-memory prediction store: `predictions[eventName][userId]` is the
 * list of `{fight, prediction}` records a user made on an event. The
 * object's key order (what `Object.keys(predictions)` enumerates) is kept
 * beside the entries, since the `!mypredictions` buttons are numbered in it.
 */
module Predictions {
  import opened Options
  import opened Scraping

  /** One stored record: the fight's label and the picked fighter's name. */
  datatype Prediction = Prediction(fight: string, prediction: string)

  datatype Table = Table(order: seq<string>, entries: map<string, map<string, seq<Prediction>>>)

  predicate Distinct(keys: seq<string>)
  {
    forall i, j :: 0 <= i < j < |keys| ==> keys[i] != keys[j]
  }

  /** The key order lists every event key of the entries exactly once. */
  predicate WellFormed(t: Table)
  {
    && Distinct(t.order)
    && (forall e :: e in t.entries ==> e in t.order)
    && (forall i :: 0 <= i < |t.order| ==> t.order[i] in t.entries)
  }

  /** `predictions[event][userId]` is truthy: an array, even an empty one, is. */
  predicate HasList(t: Table, event: string, userId: string)
  {
    event in t.entries && userId in t.entries[event]
  }

  /** The user's list on an event, empty when there is none. */
  function List(t: Table, event: string, userId: string): seq<Prediction>
  {
    if HasList(t, event, userId) then t.entries[event][userId] else []
  }

  /**
   * `fighterIndex === "1" ? selectedFight.fighter1 : selectedFight.fighter2`:
   * any other token, `undefined` included, picks the second fighter.
   */
  function PickFighter(fight: Fight, fighterIndex: Option<string>): (name: string)
    ensures name == fight.fighter1 || name == fight.fighter2
    ensures fighterIndex == Some("1") ==> name == fight.fighter1
    ensures fighterIndex != Some("1") ==> name == fight.fighter2
  {
    if fighterIndex == Some("1") then fight.fighter1 else fight.fighter2
  }

  /**
   * The store after recording `p` for `userId` on `event`: the event's map
   * and the user's list are created when missing, then `p` is appended;
   * every other (event, user) list stays as it was.
   */
  function Record(t: Table, event: string, userId: string, p: Prediction): (r: Table)
    requires WellFormed(t)
    ensures WellFormed(r)
    ensures HasList(r, event, userId) && List(r, event, userId) == List(t, event, userId) + [p]
    ensures forall e, u :: (e != event || u != userId) ==>
              HasList(r, e, u) == HasList(t, e, u) && List(r, e, u) == List(t, e, u)
    ensures r.order == if event in t.entries then t.order else t.order + [event]
  {
    var users := if event in t.entries then t.entries[event] else map[];
    var list := if userId in users then users[userId] else [];
    var order := if event in t.entries then t.order else t.order + [event];
    Table(order, t.entries[event := users[userId := list + [p]]])
  }

  /** `Object.keys(predictions).filter(event => predictions[event][userId])`, over a list of keys. */
  function Filter(keys: seq<string>, t: Table, userId: string): (r: seq<string>)
    ensures |r| <= |keys|
    ensures forall e :: e in r <==> e in keys && HasList(t, e, userId)
    decreases |keys|
  {
    if keys == [] then []
    else
      var rest := Filter(keys[1..], t, userId);
      if HasList(t, keys[0], userId) then [keys[0]] + rest else rest
  }

  /** The events a user has a list on, in key order. */
  function UserEvents(t: Table, userId: string): (r: seq<string>)
    ensures forall e :: e in r ==> HasList(t, e, userId)
    ensures WellFormed(t) ==> forall e :: HasList(t, e, userId) ==> e in r
    ensures WellFormed(t) ==> Distinct(r)
  {
    var r := Filter(t.order, t, userId);
    if WellFormed(t) then
      FilterDistinct(t.order, t, userId);
      r
    else r
  }

  /** Filtering keeps the keys' relative order: it distributes over concatenation. */
  lemma {:induction false} FilterAppend(a: seq<string>, b: seq<string>, t: Table, userId: string)
    ensures Filter(a + b, t, userId) == Filter(a, t, userId) + Filter(b, t, userId)
    decreases |a|
  {
    if a == [] {
      assert a + b == b;
    } else {
      assert (a + b)[0] == a[0];
      assert (a + b)[1..] == a[1..] + b;
      FilterAppend(a[1..], b, t, userId);
    }
  }

  /** Filtering distinct keys gives distinct keys. */
  lemma {:induction false} FilterDistinct(keys: seq<string>, t: Table, userId: string)
    requires Distinct(keys)
    ensures Distinct(Filter(keys, t, userId))
    decreases |keys|
  {
    if keys != [] {
      FilterDistinct(keys[1..], t, userId);
      var rest := Filter(keys[1..], t, userId);
      assert keys[0] !in keys[1..];
      assert keys[0] !in rest;
      if HasList(t, keys[0], userId) {
        var r := [keys[0]] + rest;
        forall i, j | 0 <= i < j < |r| ensures r[i] != r[j] {
          assert r[j] == rest[j - 1];
          if i > 0 { assert r[i] == rest[i - 1]; }
        }
      }
    }
  }

  /**
   * Recording on an event the user already has a list on leaves the user's
   * events as they were; recording on a new event key appends that event.
   */
  lemma RecordUserEvents(t: Table, event: string, userId: string, p: Prediction)
    requires WellFormed(t)
    ensures var r := Record(t, event, userId, p);
            && (HasList(t, event, userId) ==> UserEvents(r, userId) == UserEvents(t, userId))
            && (event !in t.entries ==> UserEvents(r, userId) == UserEvents(t, userId) + [event])
  {
    var r := Record(t, event, userId, p);
    if HasList(t, event, userId) {
      FilterSameMembers(t.order, r, t, userId);
    }
    if event !in t.entries {
      FilterSameMembers(t.order, r, t, userId);
      FilterAppend(t.order, [event], r, userId);
      assert Filter([event], r, userId) == [event];
    }
  }

  /**
   * Recording on an existing event key the user has no list on inserts that
   * event at the key's own position among the user's events, not at the end:
   * the user's events after it move one place later.
   */
  lemma RecordUserEventsInserts(t: Table, event: string, userId: string, p: Prediction, k: nat)
    requires WellFormed(t) && k < |t.order| && t.order[k] == event && !HasList(t, event, userId)
    ensures UserEvents(t, userId) == Filter(t.order[..k], t, userId) + Filter(t.order[k + 1..], t, userId)
    ensures UserEvents(Record(t, event, userId, p), userId)
         == Filter(t.order[..k], t, userId) + [event] + Filter(t.order[k + 1..], t, userId)
  {
    var r := Record(t, event, userId, p);
    var pre, post := t.order[..k], t.order[k + 1..];
    OthersKeys(t.order, k);
    RecordKeepsOthers(t, event, userId, p, pre);
    RecordKeepsOthers(t, event, userId, p, post);
    FilterSameMembers(pre, r, t, userId);
    FilterSameMembers(post, r, t, userId);
    UserEventsAround(r, userId, k);
    UserEventsSkip(t, userId, k);
  }

  /** The user's events when the key at position k carries no list of theirs. */
  lemma UserEventsSkip(t: Table, userId: string, k: nat)
    requires k < |t.order| && !HasList(t, t.order[k], userId)
    ensures UserEvents(t, userId) == Filter(t.order[..k], t, userId) + Filter(t.order[k + 1..], t, userId)
  {
    UserEventsAround(t, userId, k);
  }

  /** A user's events, split around the key at position k of the key order. */
  lemma UserEventsAround(t: Table, userId: string, k: nat)
    requires k < |t.order|
    ensures UserEvents(t, userId)
         == Filter(t.order[..k], t, userId)
            + (if HasList(t, t.order[k], userId) then [t.order[k]] else [])
            + Filter(t.order[k + 1..], t, userId)
  {
    assert t.order == t.order[..k] + [t.order[k]] + t.order[k + 1..];
    FilterAround(t.order[..k], t.order[k], t.order[k + 1..], t, userId);
  }

  /** Filtering around one key: the keys before it, the key if kept, the keys after it. */
  lemma FilterAround(pre: seq<string>, key: string, post: seq<string>, t: Table, userId: string)
    ensures Filter(pre + [key] + post, t, userId)
         == Filter(pre, t, userId) + (if HasList(t, key, userId) then [key] else []) + Filter(post, t, userId)
  {
    FilterAppend(pre + [key], post, t, userId);
    FilterAppend(pre, [key], t, userId);
    assert Filter([key], t, userId) == if HasList(t, key, userId) then [key] else [];
  }

  /** In distinct keys, no key before or after position k is the key at k. */
  lemma OthersKeys(keys: seq<string>, k: nat)
    requires Distinct(keys) && k < |keys|
    ensures keys[k] !in keys[..k] && keys[k] !in keys[k + 1..]
  {
  }

  /** Recording leaves, for the same user, every other event's list presence as it was. */
  lemma RecordKeepsOthers(t: Table, event: string, userId: string, p: Prediction, keys: seq<string>)
    requires WellFormed(t) && event !in keys
    ensures forall e :: e in keys ==>
              HasList(Record(t, event, userId, p), e, userId) == HasList(t, e, userId)
  {
  }

  /** Two stores that agree on which keys carry the user's list filter those keys alike. */
  lemma {:induction false} FilterSameMembers(keys: seq<string>, r: Table, t: Table, userId: string)
    requires forall e :: e in keys ==> HasList(r, e, userId) == HasList(t, e, userId)
    ensures Filter(keys, r, userId) == Filter(keys, t, userId)
    decreases |keys|
  {
    if keys != [] {
      FilterSameMembers(keys[1..], r, t, userId);
    }
  }
}

=== FILE: scraping.dfy ===
/**
 * Events and fights, and the part of `addEvent` that turns the strings
 * extracted from an event page into an event record. Fetching the page and
 * running the CSS selectors are outside the model: a page arrives as the
 * already trimmed heading text and, per fight listing row, the four trimmed
 * name strings of the red and blue corners.
 */
module Scraping {
  import opened Options

  datatype Fight = Fight(fighter1: string, fighter2: string, result: int)

  datatype Event = Event(eventName: string, date: string, fights: seq<Fight>)

  /** The trimmed texts of one `.c-listing-fight__names-row`. */
  datatype NameRow = NameRow(redGiven: string, redFamily: string, blueGiven: string, blueFamily: string)

  /** The trimmed `h1` text and the fight rows of a fetched page. */
  datatype Page = Page(heading: string, rows: seq<NameRow>)

  /** The date every scraped event gets. */
  const ScrapedDate := "test"

  /** `given + " " + family`: never empty, whatever the two parts are. */
  function FullName(given: string, family: string): (name: string)
    ensures |name| == |given| + 1 + |family| && name != ""
    ensures name[..|given|] == given && name[|given|] == ' ' && name[|given| + 1..] == family
  {
    given + " " + family
  }

  /** `${fighter1} vs ${fighter2}`: a fight's label on its button and in a stored prediction. */
  function FightLabel(f: Fight): (text: string)
    ensures |text| == |f.fighter1| + 4 + |f.fighter2|
    ensures text[..|f.fighter1|] == f.fighter1 && text[|f.fighter1| + 4..] == f.fighter2
    ensures text[|f.fighter1|..|f.fighter1| + 4] == " vs "
  {
    f.fighter1 + " vs " + f.fighter2
  }

  /** The fight a row would yield if the guard `fullName1 && fullName2` let it through. */
  function RowFight(row: NameRow): (f: Fight)
    ensures f.fighter1 != "" && f.fighter2 != "" && f.result == 0
    ensures |f.fighter1| == |row.redGiven| + 1 + |row.redFamily|
    ensures |f.fighter2| == |row.blueGiven| + 1 + |row.blueFamily|
    ensures f.fighter1[..|row.redGiven|] == row.redGiven && f.fighter1[|row.redGiven|] == ' '
            && f.fighter1[|row.redGiven| + 1..] == row.redFamily
    ensures f.fighter2[..|row.blueGiven|] == row.blueGiven && f.fighter2[|row.blueGiven|] == ' '
            && f.fighter2[|row.blueGiven| + 1..] == row.blueFamily
  {
    Fight(FullName(row.redGiven, row.redFamily), FullName(row.blueGiven, row.blueFamily), 0)
  }

  /** The `.each` callback over the fight rows: build both full names, push a fight when both are non-empty. */
  method ScrapeFights(rows: seq<NameRow>) returns (fights: seq<Fight>)
    ensures |fights| == |rows|
    ensures forall i :: 0 <= i < |rows| ==> fights[i] == RowFight(rows[i])
    ensures forall i :: 0 <= i < |fights| ==>
              fights[i].fighter1 != "" && fights[i].fighter2 != "" && fights[i].result == 0
  {
    fights := [];
    for i := 0 to |rows|
      invariant |fights| == i
      invariant forall j :: 0 <= j < i ==> fights[j] == RowFight(rows[j])
    {
      var row := rows[i];
      var fullName1 := FullName(row.redGiven, row.redFamily);
      var fullName2 := FullName(row.blueGiven, row.blueFamily);
      if fullName1 != "" && fullName2 != "" {
        fights := fights + [Fight(fullName1, fullName2, 0)];
      }
    }
  }

  /**
   * What `addEvent(url)` returns once the page is fetched: `null` for a
   * failed fetch, and for an empty heading, which throws "Could not find
   * event details." into the catch; otherwise the event with a fight for
   * every listing row, since the full-name guard never rejects a row.
   */
  function ScrapedEvent(page: Option<Page>): (event: Option<Event>)
    ensures event.None? <==> page.None? || page.value.heading == ""
    ensures event.Some? ==>
              && event.value.eventName == page.value.heading
              && event.value.date == ScrapedDate
              && |event.value.fights| == |page.value.rows|
              && forall f :: f in event.value.fights ==> f.fighter1 != "" && f.fighter2 != "" && f.result == 0
    ensures event.Some? ==>
              forall i :: 0 <= i < |page.value.rows| ==> event.value.fights[i] == RowFight(page.value.rows[i])
  {
    if page.None? || page.value.heading == "" then None
    else
      var rows := page.value.rows;
      Some(Event(page.value.heading, ScrapedDate, seq(|rows|, i requires 0 <= i < |rows| => RowFight(rows[i]))))
  }

  /** `addEvent` as written: the name check, then the `.each` loop over the rows. */
  method ScrapeEvent(page: Option<Page>) returns (event: Option<Event>)
    ensures event == ScrapedEvent(page)
  {
    if page.None? {
      return None;
    }
    var eventName := page.value.heading;
    var eventDate := ScrapedDate;
    if eventName == "" || eventDate == "" {
      return None;
    }
    var rows := page.value.rows;
    var fights := ScrapeFights(rows);
    assert fights == seq(|rows|, i requires 0 <= i < |rows| => RowFight(rows[i]));
    event := Some(Event(eventName, eventDate, fights));
  }
}
